=== FILE: README.md ===
# XEON-XTECH WhatsApp bot: decision rules in Dafny

This project models the decision logic of the XEON-XTECH WhatsApp bot and
proves properties about it. The socket, HTTP and file handling around that
logic is not modelled. What is modelled:

- **Session bootstrap** (`session.dfy`, module `Session`). This covers three steps:
  - how `downloadSessionData` classifies the `SESSION_ID` string: missing,
    Mega reference `(fileId, key)`, malformed Mega reference, Pastebin key,
    or inline base64;
  - what it fetches and writes for each kind;
  - how `init` chooses between the local credentials file, downloaded
    credentials and the QR-code fallback.

  The JavaScript string operations it relies on (`startsWith`, `includes`,
  `split(sep)[k]`, `toLowerCase`) are modelled exactly in `text.dfy`
  (module `Text`). The ASCII-only lower-casing noted under Left out is the
  one exception.
- **The `connection.update` handler** (`supervisor.dfy`, module `Supervisor`).
  It is modelled as a state machine over the state below. Each event yields
  the next state and the external calls made, in order.
  - `initialConnection` and `global.isLiveBioRunning`.
  - Whether the session directory exists and whether the process has exited.
  - Counters of the sockets started, the announcements completed and the bio
    intervals started.
  - The socket the bio interval holds.

  The events are:
  - a close with an optional status code;
  - an open whose greeting was or was not sent;
  - a start-up failure (`index.js:381-384`).
- **The pieces of the one-time announcement that are decisions**
  (`announce.dfy`): the speed label and the invite code taken from the group
  link by the regular expression.
- **The live bio** (`bio.dfy`): the hour-of-day bucket and the random quote
  index.
- **The secondary `messages.upsert` handler** (`status_watch.dfy`). It
  chooses which automatic reaction, status read, status reaction and status
  reply to make. Configuration values are modelled with JavaScript
  truthiness, so the string `"false"` counts as true.
- **The two command plugins** (`command.dfy`, `leave_command.dfy`,
  `repo_command.dfy`):
  - the command word: the text after the prefix up to the first space,
    lower-cased;
  - the guard chain of `leave`;
  - the reply choice and the final reaction of `repo`.

External calls are handled in one of two ways:
- **Calls that produce results** are parameters, each result either a value
  or a failure. These are the Mega download, the Pastebin request, Node's
  base64 decoder, the credentials write, `decodeJid`, the GitHub request and
  the greeting's `sendMessage`.
- **Baileys calls made for their effect** appear as emitted actions. These
  are `sendMessage`, `query`, `groupAcceptInvite`, `updateProfileStatus`,
  `readMessages`, `groupLeave` and `React`.

`Math.random()` is an input `u` with `0 <= u < 1`. The hour is an input
from the clock.

Two details of the source that are easy to misread:
- The Pastebin key is `SESSION_ID.split("POPKID$")[1]`. That is the text
  after the marker only up to the marker's next occurrence, if any
  (`Session.Classify`).
- `DisconnectReason.loggedOut` is 401, the value the Baileys library
  defines.

## Model

| member | source | states |
|---|---|---|
| Session.Classify | index.js:77-134 | The four branches are mutually exclusive and exhaustive, each given as an if-and-only-if. An unset or empty value is `Missing`. Otherwise the Mega marker is tested first, then the Pastebin marker, and everything else is inline base64 carrying the whole value. A malformed Mega value has text after the marker that is empty or has no "#". A Mega value's file id and key contain no "#", and the value starts with marker, file id, "#", key. The key is the whole second "#"-piece of the text after the marker (up to the marker's next occurrence): what follows it is the end of that text or a "#". A Pastebin key never contains the marker, and the value starts with marker then key, after which the value ends or the marker occurs again, so the key is the whole text between the first two markers. |
| Session.MegaReference | index.js:90 | `sessdata.split("#")` yields a file id and a key, neither containing "#". `sessdata` starts with file id, "#", key, and after the key `sessdata` ends or has another "#", so the key is the whole second piece. |
| Session.DownloadSessionData | index.js:74-135 | Success means the credentials file was written and the write succeeded. An unset or malformed value makes no external call. At most two calls are made. A Mega fetch comes first, only for a Mega value, and its URL starts with `https://mega.nz/file/` and contains "#". A Pastebin fetch comes first, only for a Pastebin value. A Mega value always fetches first from `https://mega.nz/file/<fileId>#<key>` for its classified file id and key, and a Pastebin value always fetches first from `https://pastebin.com/raw/<key>`. For either reference, the credentials are written only after a fetch that returned data, so a failed fetch is the only call made; success holds exactly when that fetch and the write succeed, and what is written is the downloaded bytes, or the Pastebin body as text (its JSON text when it is not a string). An inline value writes the base64-decoded text. |
| Session.FetchCreds | index.js:90-131 | Once the kind is known: a missing or malformed value makes no call; a Mega or Pastebin reference is fetched first from its URL, and only such a reference is fetched; for a reference, the write follows only a fetch that returned data, so a failed fetch is the only call made; success holds exactly when the fetch and the write succeed, and the fetched bytes, or the Pastebin body as text, are what is written; an inline value is decoded and written; success means the write succeeded. |
| Session.Init | index.js:387-405 | `start` is called exactly once. With a local credentials file nothing is downloaded and QR stays off. Without one, the download is attempted. QR is switched on exactly when no credentials are ready. |
| Session.NoUsableIdFallsBackToQr | index.js:77-88 | Without a local file, an unset or malformed `SESSION_ID` leads to QR pairing with no external call. |
| Session.MegaDownloadUrl | index.js:90-105 | A well-formed Mega reference is fetched from `https://mega.nz/file/<fileId>#<key>`. Success holds exactly when the download and the write succeed, and the bytes written are exactly those downloaded. |
| Session.PasteDownloadUrl | index.js:110-119 | A Pastebin reference is fetched from `https://pastebin.com/raw/<key>`. Success holds exactly when the request and the write succeed. A non-string body is written as its JSON text. |
| Session.MegaRoundTrip | index.js:82-90 | Writing the marker, a file id, "#" and a key classifies back to that file id and key. |
| Session.MegaFirstTwoPieces | index.js:90 | Only the first two "#"-separated pieces are kept. A further "#" and everything after it are dropped, and empty pieces are not rejected. |
| Session.MegaExample | index.js:82-90 | `"XEON-XTECH~abc123#key456"` gives `("abc123", "key456")`. |
| Session.MegaExtraPieceExample | index.js:90 | `"XEON-XTECH~#key456#extra"` gives `("", "key456")`. |
| Text.IndexFromIsFirst | index.js:83 | The scan that `split` uses finds an occurrence of the separator, with none before it, and finds nothing only when the separator does not occur at or after the start. |
| Text.SplitPieces | index.js:83 | No piece of a split contains the separator. The first piece is a prefix of the text. There is more than one piece exactly when the separator occurs, and then it occurs right after the first piece. |
| Text.SplitJoin | index.js:90 | Joining the pieces with the separator gives the text back. |
| Text.SplitTwoPieces | index.js:90 | With a one-character separator, `a + sep + b + tail` splits into `a` and then `b`, when `a` and `b` are separator-free and `tail` is empty or starts with the separator. |
| Text.SplitLeadingSeparator | index.js:83 | A text that starts with the separator splits into an empty first piece followed by the pieces of the rest, so `split(marker)[1]` is the first piece of the text after the marker. |
| Text.FirstPieceUnique | plugins/left.js:8 | For a one-character separator, `split(sep)[0]` is the only separator-free prefix that ends at the end of the text or right before the separator. |
| Text.ToLowerKeepsSpaces | plugins/left.js:8 | Lower-casing neither creates nor removes a space. |
| Bio.BucketFollowsSchedule | index.js:183-195 | Each hour 0..23 lands in the bucket the hour-by-hour schedule gives: [5,12) morning, [12,18) afternoon, [18,22) evening, and every other hour night. |
| Bio.BucketsAreConsecutive | index.js:183-195 | One hour forward either stays in the bucket or moves to the next one. The buckets are four arcs of the clock, in order. |
| Bio.RandomIndex | index.js:197 | `Math.floor(Math.random() * n)` is a valid index into a list of length `n`, and it is the floor of `u * n`. |
| Bio.BioQuote | index.js:138-198 | The chosen quote belongs to the list for the hour's bucket. Its index is always within that list's six entries, and it is `floor(6u)`: `index <= 6u < index + 1`. |
| Announce.Speed | index.js:253 | The reported speed lies in [200, 1700), and it is 200 plus the whole number of milliseconds below `u * 1500`: `speed - 200 <= u * 1500 < speed - 199`. |
| Announce.SpeedLabelMonotone | index.js:252-256 | A slower speed never gets a better label. Each of the three labels is shown for some random draw. |
| Announce.InviteCode | index.js:310-312 | There is no code exactly when the regex matches nowhere. Otherwise the code is a non-empty maximal run of `[a-zA-Z0-9-]`, taken right after the leftmost `chat.whatsapp.com/` that is followed by such a character. |
| Announce.InviteAfterPrefix | index.js:310-312 | For a link made of a prefix without `c`, the host, a run of invite characters and a non-invite character, the code is exactly that run. |
| Announce.ConfiguredInviteCode | index.js:308-312 | The hard-coded group link yields the code `FMiFOIfMlWSIkN77Xnc9Ag`. |
| Supervisor.JoinEffects | index.js:294-324 | The two concurrent tasks make exactly one channel-follow request. They start no interval and no socket, and do not touch the bio, the greeting or the session directory. |
| Supervisor.ConfiguredJoin | index.js:307-321 | With the configured link the bot follows the channel and then joins the group with the code taken from the link. |
| Supervisor.Step | index.js:233-345 | After exit nothing happens. Validity is preserved, and a running interval keeps running on its socket. `initialConnection` is cleared only by an open whose greeting was sent, and never set again. The session directory disappears only on logout. A close with any code other than `loggedOut`, including a missing one, starts one socket and leaves the directory alone. `loggedOut` removes the directory and exits with status 1. |
| Supervisor.OpenTransitions | index.js:246-342 | The first open whose greeting went out clears `initialConnection`, leaves the interval running, starts with the bio update and the greeting, follows the channel, joins the group with the code `FMiFOIfMlWSIkN77Xnc9Ag`, and starts an interval exactly when none was running. Any later open leaves the interval running and makes exactly one call, starting it, exactly when none was running. No open exits the process, starts a socket or changes the session directory. An initial open whose greeting failed has made the bio update and the greeting and changes nothing else. A start-up failure (`index.js:381-384`) makes the single call `process.exit(1)` and the process has exited. |
| Supervisor.AnnouncementLayout | index.js:249-331 | The announcement's calls begin with the bio update and the greeting, include the channel follow and any call the joins make, and contain an interval start exactly when the interval step does. |
| Supervisor.AnnouncementEffects | index.js:247-333 | The completed announcement clears `initialConnection`, leaves the interval running, begins with bio update and greeting, follows the channel, joins the group with the configured code, and starts an interval exactly when none was running. |
| Supervisor.FirstOpenAnnouncesOnce | index.js:247-333 | From start-up, the first open whose greeting goes out starts exactly one bio interval and follows the channel exactly once. |
| Supervisor.StepCounts | index.js:235-342 | In one step, the counters for bio intervals, sockets and announcements grow by the number of matching calls made. |
| Supervisor.AnnouncementCounts | index.js:247-333 | In the completed announcement, the interval, socket and announcement counters grow by exactly the interval, socket and follow calls it makes. |
| Supervisor.StepGuards | index.js:235-249 | Bio update and greeting happen only on an open while `initialConnection` holds. The session directory is removed exactly on a `loggedOut` close of a live process. |
| Supervisor.RunKeepsValid | index.js:233-345 | Every state reachable from a valid state is valid. |
| Supervisor.RunCounts | index.js:233-345 | Over any event sequence, the interval, socket and follow calls made equal the growth of the matching counter. |
| Supervisor.SingleIntervalSingleAnnouncement | index.js:326-341 | From start-up, whatever the connection does, at most one bio interval is started and at most one announcement completes. The second half holds because each handler runs to completion before the next event (see Left out). |
| Supervisor.ExitedIsTerminal | index.js:244 | Once the process has exited, no event has any effect. |
| Supervisor.LogoutIsFinal | index.js:240-245 | A logout removes the session directory and exits. No socket is ever started again, whatever events follow. |
| Supervisor.ReopenIsQuiet | index.js:334-342 | In a reachable state after the announcement, a re-established connection makes no call and changes nothing. |
| Supervisor.IntervalKeepsItsSocket | index.js:326-331 | The bio interval keeps the socket it was started with across any later reconnects. |
| StatusWatch.Handle | index.js:354-379 | Each action, as an if-and-only-if: nothing at all for an absent, content-less, own or protocol message. Otherwise the auto-reaction exactly when `AUTO_REACT` is truthy and the chat is not a group. The status read, status reaction and status reply happen exactly for `status@broadcast`. They additionally require, respectively, a truthy `AUTO_STATUS_SEEN`, `AUTO_STATUS_REACT` equal to the string `"true"`, and a truthy `AUTO_STATUS_REPLY`. |
| StatusWatch.HandleOrder | index.js:359-374 | Actions come in the order of the handler's body, at most one of each. A reply is the configured status text, or the default when that is unset or empty. |
| StatusWatch.TruthinessOnStatus | index.js:359-370 | On a status update, `AUTO_REACT = "false"` still reacts, while `AUTO_STATUS_REACT = true` (a boolean) does not. |
| Command.CommandWord | plugins/left.js:8 | Without the prefix the word is empty. Otherwise it is the lower-cased text after the prefix, ending at a space or at the end of the body, and it never contains a space. |
| Command.CommandWordOf | plugins/repo.js:6 | Prefix, a space-free word and then nothing or a space give exactly that word, lower-cased. |
| LeaveCommand.LeaveGroup | plugins/left.js:3-23 | The bot leaves exactly when all of these hold: the bot jid is known, the word is one of leave/exit/left, the chat is a group, and the sender is the bot or the owner. It then leaves the chat the command came from. An unknown jid or any other word does nothing. A valid word outside a group gets the group-only reply, before the creator check. The creator-only reply is sent exactly when the jid is known, the word is valid, the chat is a group and the sender is neither the bot nor the owner. |
| LeaveCommand.NoPrefixNoAction | plugins/left.js:8-13 | A body without the prefix is never acted on. |
| LeaveCommand.OwnerLeavesWithUpperCase | plugins/left.js:5-19 | The owner sending `.LEAVE now` in a group makes the bot leave that group. |
| RepoCommand.Repo | plugins/repo.js:4-52 | Any call is made exactly when the word is `repo`, and then there are exactly three: 🖇️, one reply, ✅. The reply is the repository card exactly when both counts are defined, and it shows them. The error text is sent exactly when the fetch threw. |
| RepoCommand.AlwaysEndsWithCheck | plugins/repo.js:48-50 | Whatever the fetch does, the last call is the ✅ reaction, made once. |
| RepoCommand.UpperCaseRepoTriggers | plugins/repo.js:6-9 | `.REPO please` triggers the command. |
| RepoCommand.ReposDoesNotTrigger | plugins/repo.js:6-8 | `.repos` does not trigger the command. |

## Left out

- The express health server (`index.js:411-423`): it is HTTP plumbing.
- Real I/O:
  - Mega, Pastebin, GitHub, Node's base64 decoder and `fs`
    (`writeFile`, `existsSync`, `rmSync`) are parameters giving each call's
    result or failure.
  - Node's lenient base64 decoding is an uninterpreted function.
- Socket creation and the Baileys library are not modelled beyond their
  calls, which appear as emitted actions. `useMultiFileAuthState`,
  `fetchLatestBaileysVersion` and `makeWASocket` are covered only by the
  start-up failure event.
- Concurrency and timing:
  - each handler runs to completion before the next event;
  - `Promise.all` is modelled as both tasks running;
  - the unawaited `start()` is modelled as one started socket;
  - `setInterval` is modelled as one started interval, without its
    10-second ticks.
- Supervisor.Step: a greeting `sendMessage` that throws rejects the handler.
  The model then keeps the state unchanged. Node's policy for the unhandled
  rejection (it may end the process) is not modelled.
- Supervisor.SingleIntervalSingleAnnouncement: the at-most-one-announcement
  half relies on handlers not interleaving. In the source,
  `initialConnection = false` (`index.js:333`) comes after the awaits at
  `index.js:249`, `index.js:272` and `index.js:294`. A close during them runs
  `start()` (`index.js:239`), and the new socket's open still sees
  `initialConnection` true and announces again. Only the interval half
  survives interleaving, because the test-and-set at `index.js:326-327` has
  no await between test and set.
- Supervisor.Step: a close with `lastDisconnect` itself undefined throws in
  the source. The model treats every close as carrying an optional status
  code.
- Bio.BioQuote: the quote texts, emojis and the `HH:mm:ss` time in the bio
  are not modelled. A quote is identified by its bucket and position.
- `moment-timezone` and `Math.random` are not modelled: the hour and the
  random draws are inputs. Floating point is exact real arithmetic.
- Caption texts, chalk and pino logging: cosmetic.
- `Handler`, `Callupdate` and `GroupUpdate` from `./data`, and `doReact` and
  `doStatusReact`: not part of this model. They appear only as actions.
- StatusWatch.Handle: the emoji chosen for the auto-reaction is not modelled.
- StatusWatch.Handle: a call that throws part-way through is caught by the
  handler and ends it early. The model lists the calls of a run in which
  none throws.
- Text.ToLower: lower-cases ASCII letters only. JavaScript's full Unicode
  case mapping is not modelled.
- RepoCommand.Repo: a throw from the first 🖇️ reaction escapes the handler
  (it sits outside the `try`). The model assumes reactions succeed. The
  unawaited `sendMessage` replies are modelled as made.
- LeaveCommand.LeaveGroup: the outcome is the call attempted, and call
  failures are not modelled. A synchronous throw inside the `try` is caught
  and logged, and so is a failed `await gss.groupLeave` (`plugins/left.js:19`).
  The two replies (`plugins/left.js:15`, `plugins/left.js:17`) are returned
  without `await`, so a rejected reply settles the handler's promise after
  the `try` and escapes the `catch`. The unused `text` variable
  (`plugins/left.js:9`) is not modelled.

=== FILE: announce.dfy ===
/** Pieces of the one-time connection announcement that are decisions
    rather than text: the speed label shown in the greeting and the invite
    code taken from the configured group link. */
module Announce {
  import opened Wrappers
  import opened Text

  datatype SpeedStatus = Stable | Moderate | Slow

  /** `Math.floor(Math.random() * 1500) + 200` for `u = Math.random()`. */
  function Speed(u: real): (ms: int)
    requires 0.0 <= u < 1.0
    ensures 200 <= ms < 1700
    ensures (ms - 200) as real <= u * 1500.0 < (ms - 199) as real
  {
    assert u * 1500.0 < 1500.0;
    (u * 1500.0).Floor + 200
  }

  /** The label the greeting shows for a measured speed. */
  function SpeedLabel(speed: int): SpeedStatus {
    if speed > 1000 then Slow
    else if speed > 500 then Moderate
    else Stable
  }

  function Rank(s: SpeedStatus): nat {
    match s
    case Stable => 0
    case Moderate => 1
    case Slow => 2
  }

  /** A slower speed never gets a better label, and every label is shown
      for some value `Math.random()` can return. */
  lemma SpeedLabelMonotone(a: int, b: int)
    requires a <= b
    ensures Rank(SpeedLabel(a)) <= Rank(SpeedLabel(b))
    ensures SpeedLabel(Speed(0.0)) == Stable
    ensures SpeedLabel(Speed(0.5)) == Moderate
    ensures SpeedLabel(Speed(0.9)) == Slow
  {
  }

  const InviteHost: string := "chat.whatsapp.com/"
  const InviteCodeText: string := "FMiFOIfMlWSIkN77Xnc9Ag"

  /** The hard-coded group link,
      https://chat.whatsapp.com/FMiFOIfMlWSIkN77Xnc9Ag?mode=ac_c */
  const GroupLink: string := "https://" + InviteHost + InviteCodeText + "?mode=ac_c"

  /** The character class `[a-zA-Z0-9-]`. */
  predicate InviteChar(c: char) {
    'a' <= c <= 'z' || 'A' <= c <= 'Z' || '0' <= c <= '9' || c == '-'
  }

  /** The greedy `[a-zA-Z0-9-]+` run at the start of `s` (possibly empty). */
  function InviteRun(s: string): (r: string)
    ensures StartsWith(s, r)
    ensures forall i | 0 <= i < |r| :: InviteChar(r[i])
    ensures |r| == |s| || !InviteChar(s[|r|])
  {
    if |s| == 0 || !InviteChar(s[0]) then ""
    else [s[0]] + InviteRun(s[1..])
  }

  /** The regular expression `/(?:chat\.whatsapp\.com\/)([a-zA-Z0-9-]+)/`
      can match starting at index `i`. */
  predicate MatchesAt(link: string, i: int) {
    OccursAt(link, InviteHost, i) && i + |InviteHost| < |link|
    && InviteChar(link[i + |InviteHost|])
  }

  function InviteFrom(link: string, k: nat): (r: Option<string>)
    ensures r.None? ==> forall i | k <= i :: !MatchesAt(link, i)
    ensures r.Some? ==>
              exists i | k <= i ::
                && MatchesAt(link, i)
                && (forall j | k <= j < i :: !MatchesAt(link, j))
                && r.value == InviteRun(link[i + |InviteHost|..])
    decreases |link| - k
  {
    if k >= |link| then None
    else if MatchesAt(link, k) then Some(InviteRun(link[k + |InviteHost|..]))
    else InviteFrom(link, k + 1)
  }

  /** `link.match(regex)[1]`: the capture group of the leftmost match, a
      non-empty maximal run of invite characters right after the host. */
  function InviteCode(link: string): (r: Option<string>)
    ensures r.None? <==> forall i | 0 <= i :: !MatchesAt(link, i)
    ensures r.Some? ==> |r.value| > 0 && forall c | c in r.value :: InviteChar(c)
    ensures r.Some? ==>
              exists i | 0 <= i ::
                && MatchesAt(link, i)
                && (forall j | 0 <= j < i :: !MatchesAt(link, j))
                && r.value == InviteRun(link[i + |InviteHost|..])
  {
    InviteFrom(link, 0)
  }

  /** The configured group link yields the invite code the bot joins. */
  lemma ConfiguredInviteCode()
    ensures InviteCode(GroupLink) == Some(InviteCodeText)
  {
    var scheme, query := "https://", "?mode=ac_c";
    assert forall j | 0 <= j < |scheme| :: scheme[j] != InviteHost[0];
    assert forall j | 0 <= j < |InviteCodeText| :: InviteChar(InviteCodeText[j]);
    InviteAfterPrefix(scheme, InviteCodeText, query);
  }

  /** A link made of a prefix free of the host's first character, the host,
      a non-empty run of invite characters and a text starting with a
      non-invite character yields exactly that run. */
  lemma InviteAfterPrefix(prefix: string, code: string, query: string)
    requires forall j | 0 <= j < |prefix| :: prefix[j] != InviteHost[0]
    requires |code| > 0 && forall j | 0 <= j < |code| :: InviteChar(code[j])
    requires |query| > 0 && !InviteChar(query[0])
    ensures InviteCode(prefix + InviteHost + code + query) == Some(code)
  {
    var link := prefix + InviteHost + code + query;
    var at := |prefix|;
    forall j | 0 <= j < at
      ensures !MatchesAt(link, j)
    {
      assert link[j] == prefix[j];
      if OccursAt(link, InviteHost, j) {
        OccursAtFirstChar(link, InviteHost, j);
        assert false;
      }
    }
    assert link[at..at + |InviteHost|] == InviteHost;
    var tail := link[at + |InviteHost|..];
    assert tail == code + query;
    assert MatchesAt(link, at);
    assert InviteRun(tail) == code by {
      InviteRunStopsAt(code, query);
    }
  }

  /** The run taken from a text made of invite characters followed by a
      non-invite character is exactly those characters. */
  lemma {:induction false} InviteRunStopsAt(word: string, rest: string)
    requires forall c | c in word :: InviteChar(c)
    requires |rest| > 0 && !InviteChar(rest[0])
    ensures InviteRun(word + rest) == word
  {
    if |word| > 0 {
      assert (word + rest)[1..] == word[1..] + rest;
      InviteRunStopsAt(word[1..], rest);
    } else {
      assert word + rest == rest;
    }
  }
}

=== FILE: bio.dfy ===
/** The live bio: the hour of the day picks one of four quote lists and a
    random position picks a quote in it. `Math.random()` is taken as an
    input `u` with `0 <= u < 1`, the hour as an input from the clock. */
module Bio {

  datatype TimeOfDay = Morning | Afternoon | Evening | Night

  /** The list a bio quote is drawn from for a given hour of the day. */
  function Bucket(hour: int): TimeOfDay {
    if hour >= 5 && hour < 12 then Morning
    else if hour >= 12 && hour < 18 then Afternoon
    else if hour >= 18 && hour < 22 then Evening
    else Night
  }

  /** The day read clockwise from midnight, one entry per hour. */
  const Schedule: seq<TimeOfDay> :=
    [Night, Night, Night, Night, Night,
     Morning, Morning, Morning, Morning, Morning, Morning, Morning,
     Afternoon, Afternoon, Afternoon, Afternoon, Afternoon, Afternoon,
     Evening, Evening, Evening, Evening,
     Night, Night]

  /** The bucket of every hour a clock can show agrees with the schedule. */
  lemma BucketFollowsSchedule()
    ensures |Schedule| == 24
    ensures forall hour | 0 <= hour < 24 :: Bucket(hour) == Schedule[hour]
  {
  }

  /** The bucket that follows `b` as the day goes on. */
  function NextBucket(b: TimeOfDay): TimeOfDay {
    match b
    case Morning => Afternoon
    case Afternoon => Evening
    case Evening => Night
    case Night => Morning
  }

  /** Going one hour forward either stays in the same bucket or moves to the
      next one, so the four buckets are four arcs of the clock in order. */
  lemma BucketsAreConsecutive(hour: int)
    requires 0 <= hour < 24
    ensures var next := Bucket((hour + 1) % 24);
            next == Bucket(hour) || next == NextBucket(Bucket(hour))
  {
  }

  /** `Math.floor(u * n)` for `u = Math.random()`: a position in a list of
      length `n`. */
  function RandomIndex(u: real, n: nat): (i: nat)
    requires 0.0 <= u < 1.0 && n > 0
    ensures i < n
    ensures i as real <= u * n as real < i as real + 1.0
  {
    assert u * n as real < n as real by {
      assert (1.0 - u) * n as real > 0.0;
    }
    (u * n as real).Floor
  }

  /** A quote, identified by its list and its position in the list; the
      quote texts themselves are not modelled. */
  datatype Quote = Quote(bucket: TimeOfDay, position: nat)

  /** Each of the four lists holds six quotes. */
  function Quotes(b: TimeOfDay): seq<Quote> {
    seq(6, (i: nat) => Quote(b, i))
  }

  /** `updateBio`'s choice of quote for an hour and a random number: the
      entry at `floor(6u)` of that hour's list. */
  function BioQuote(hour: int, u: real): (q: Quote)
    requires 0.0 <= u < 1.0
    ensures q in Quotes(Bucket(hour))
    ensures q.bucket == Bucket(hour) && q.position < 6
    ensures q.position as real <= u * 6.0 < q.position as real + 1.0
  {
    var quotes := Quotes(Bucket(hour));
    quotes[RandomIndex(u, |quotes|)]
  }
}

=== FILE: command.dfy ===
/** The command word both plugins read from a message body:
    `m.body.startsWith(prefix) ? m.body.slice(prefix.length).split(' ')[0].toLowerCase() : ''` */
module Command {
  import opened Text

  /** The text after the prefix up to the first space, lower-cased; empty
      when the body does not start with the prefix. */
  function CommandWord(body: string, prefix: string): (cmd: string)
    ensures !StartsWith(body, prefix) ==> cmd == ""
    ensures !Contains(cmd, " ")
    ensures StartsWith(body, prefix) ==>
              exists word ::
                && StartsWith(body, prefix + word)
                && !Contains(word, " ")
                && (|prefix + word| == |body| || body[|prefix + word|] == ' ')
                && cmd == ToLower(word)
  {
    if StartsWith(body, prefix) then
      var rest := body[|prefix|..];
      var word := FirstPiece(rest, " ");
      ToLowerKeepsSpaces(word);
      assert body == prefix + rest;
      PrefixOfPrefix(body, prefix, rest, word);
      assert |word| == |rest| || rest[|word|] == ' ';
      ToLower(word)
    else ""
  }

  /** The word is determined by the body: any prefix-word-space reading of
      the body gives the same command. */
  lemma CommandWordOf(prefix: string, word: string, rest: string)
    requires !Contains(word, " ")
    requires rest == "" || rest[0] == ' '
    ensures CommandWord(prefix + word + rest, prefix) == ToLower(word)
  {
    var body := prefix + word + rest;
    assert body[..|prefix|] == prefix;
    var after := body[|prefix|..];
    assert after == word + rest;
    assert after[..|word|] == word;
    if rest != "" {
      assert after[|word|..|word| + 1] == " ";
    }
    FirstPieceUnique(after, " ", word);
  }
}

=== FILE: leave_command.dfy ===
/** The `leave` plugin: a creator can make the bot leave the group the
    command was sent in. Each guard ends the handler with at most one reply.
    The outcome is the call attempted: a failed `groupLeave` is caught and
    logged, while a rejected reply is returned unawaited and escapes the
    handler. */
module LeaveCommand {
  import opened Wrappers
  import opened Text
  import opened Command

  const ValidCommands: set<string> := {"leave", "exit", "left"}
  const WhatsAppSuffix: string := "@s.whatsapp.net"

  datatype Message = Message(body: string, sender: string, isGroup: bool, from: string)

  datatype Config = Config(prefix: string, ownerNumber: string)

  datatype Outcome =
    | Ignored             // no reply, no leave (also: decodeJid threw)
    | ReplyGroupOnly      // "it is a group command"
    | ReplyCreatorOnly    // "only the owner can use this command"
    | Leave(group: string)  // gss.groupLeave(m.from)

  /** `[botNumber, config.OWNER_NUMBER + '@s.whatsapp.net'].includes(m.sender)` */
  predicate IsCreator(sender: string, botJid: string, cfg: Config) {
    sender in [botJid, cfg.ownerNumber + WhatsAppSuffix]
  }

  /** The handler. `botJid` is `gss.decodeJid(gss.user.id)`, `None` when
      that call throws (the catch then ends the handler with no action). */
  function LeaveGroup(m: Message, cfg: Config, botJid: Option<string>): (r: Outcome)
    ensures r.Leave? <==>
              && botJid.Some?
              && CommandWord(m.body, cfg.prefix) in ValidCommands
              && m.isGroup
              && (m.sender == botJid.value || m.sender == cfg.ownerNumber + WhatsAppSuffix)
    ensures r.Leave? ==> r.group == m.from
    ensures botJid.None? || CommandWord(m.body, cfg.prefix) !in ValidCommands ==> r == Ignored
    ensures botJid.Some? && CommandWord(m.body, cfg.prefix) in ValidCommands && !m.isGroup ==>
              r == ReplyGroupOnly
    ensures r == ReplyCreatorOnly ==> m.isGroup && botJid.Some? && m.sender != botJid.value
    ensures r == ReplyCreatorOnly <==>
              && botJid.Some?
              && CommandWord(m.body, cfg.prefix) in ValidCommands
              && m.isGroup
              && !IsCreator(m.sender, botJid.value, cfg)
  {
    match botJid
    case None => Ignored
    case Some(bot) =>
      var isCreator := IsCreator(m.sender, bot, cfg);
      var cmd := CommandWord(m.body, cfg.prefix);
      if cmd !in ValidCommands then Ignored
      else if !m.isGroup then ReplyGroupOnly
      else if !isCreator then ReplyCreatorOnly
      else Leave(m.from)
  }

  /** A body without the prefix is never a command, whatever the sender. */
  lemma NoPrefixNoAction(m: Message, cfg: Config, botJid: Option<string>)
    requires !StartsWith(m.body, cfg.prefix)
    ensures LeaveGroup(m, cfg, botJid) == Ignored
  {
  }

  /** The command word is case-insensitive and ends at the first space: the
      owner sending ".LEAVE now" in a group makes the bot leave it. */
  lemma OwnerLeavesWithUpperCase(group: string, owner: string)
    ensures LeaveGroup(Message(".LEAVE now", owner + WhatsAppSuffix, true, group),
                       Config(".", owner), Some("bot")) == Leave(group)
  {
    assert ".LEAVE now" == "." + "LEAVE" + " now";
    NotContainsByFirstChar("LEAVE", " ");
    CommandWordOf(".", "LEAVE", " now");
    assert ToLower("LEAVE") == "leave";
  }
}

=== FILE: repo_command.dfy ===
/** The `repo` plugin: on the `repo` command it reacts, fetches the
    repository's statistics from GitHub, replies with one of three messages
    and always reacts again at the end. */
module RepoCommand {
  import opened Text
  import opened Command

  /** A field of the parsed JSON: `undefined`, or present with the text it
      is shown as. */
  datatype Field = Undefined | Present(shown: string)

  /** `await response.json()`: a falsy value (such as `null`) or an object. */
  datatype RepoData = Falsy | Object(forks: Field, stars: Field)

  /** The GitHub request: it throws (network or JSON error) or yields data. */
  datatype Fetched = Threw | Parsed(data: RepoData)

  datatype Reaction = Paperclip | Check   // '🖇️' and '✅'

  datatype Reply =
    | RepoCard(stars: string, forks: string)  // image with the stylish caption
    | Incomplete                              // "could not retrieve full repo details"
    | FetchError                              // "error encountered while fetching"

  datatype Effect = React(reaction: Reaction) | Send(reply: Reply)

  /** `data && data.forks_count !== undefined && data.stargazers_count !== undefined` */
  predicate Complete(d: RepoData) {
    d.Object? && d.forks.Present? && d.stars.Present?
  }

  /** The handler's calls for a message body and the GitHub outcome. */
  function Repo(body: string, prefix: string, fetched: Fetched): (fx: seq<Effect>)
    ensures fx != [] <==> CommandWord(body, prefix) == "repo"
    ensures fx != [] ==> |fx| == 3 && fx[0] == React(Paperclip) && fx[2] == React(Check)
    ensures fx != [] ==> fx[1].Send?
    ensures fx != [] ==> (fx[1].reply.RepoCard? <==> fetched.Parsed? && Complete(fetched.data))
    ensures fx != [] && fx[1].reply.RepoCard? ==>
              fx[1].reply.stars == fetched.data.stars.shown
              && fx[1].reply.forks == fetched.data.forks.shown
    ensures fx != [] ==> (fx[1].reply == FetchError <==> fetched.Threw?)
  {
    if CommandWord(body, prefix) == "repo" then
      var reply :=
        match fetched
        case Threw => FetchError
        case Parsed(data) =>
          if Complete(data) then RepoCard(data.stars.shown, data.forks.shown)
          else Incomplete;
      [React(Paperclip), Send(reply), React(Check)]
    else []
  }

  /** However the fetch turns out, the last call of a `repo` command is the
      check-mark reaction, and only one reply is sent. */
  lemma AlwaysEndsWithCheck(body: string, prefix: string, a: Fetched, b: Fetched)
    requires CommandWord(body, prefix) == "repo"
    ensures Repo(body, prefix, a)[2] == Repo(body, prefix, b)[2] == React(Check)
    ensures multiset(Repo(body, prefix, a))[React(Check)] == 1
  {
  }

  /** The command word is case-insensitive and ends at the first space. */
  lemma UpperCaseRepoTriggers(fetched: Fetched)
    ensures Repo(".REPO please", ".", fetched) != []
  {
    assert ".REPO please" == "." + "REPO" + " please";
    NotContainsByFirstChar("REPO", " ");
    CommandWordOf(".", "REPO", " please");
    assert ToLower("REPO") == "repo";
  }

  /** A longer word that merely begins with "repo" does not trigger it. */
  lemma ReposDoesNotTrigger(fetched: Fetched)
    ensures Repo(".repos", ".", fetched) == []
  {
    assert ".repos" == "." + "repos" + "";
    NotContainsByFirstChar("repos", " ");
    CommandWordOf(".", "repos", "");
    assert ToLower("repos")[4] == 's';
  }
}

=== FILE: session.dfy ===
/** Session bootstrap: how the `SESSION_ID` configuration string is
    classified, what `downloadSessionData` fetches and writes for each kind,
    and how `init` chooses between the local credentials file, freshly
    downloaded credentials and the QR-code fallback.

    The Mega download, the Pastebin request, Node's base64 decoder and the
    file write are external; they are passed in as a `Remote` whose
    functions give the result of each call (`None` when the call throws). */
module Session {
  import opened Wrappers
  import opened Text

  const MegaMarker: string := "XEON-XTECH~"
  const PasteMarker: string := "POPKID$"
  const MegaUrlBase: string := "https://mega.nz/file/"
  const PasteUrlBase: string := "https://pastebin.com/raw/"

  /** What a `SESSION_ID` value means. */
  datatype Source =
    | Missing                               // unset or empty
    | Mega(fileId: string, key: string)     // "XEON-XTECH~<fileId>#<key>"
    | MalformedMega                         // Mega marker without a usable "#"
    | Pastebin(pasteKey: string)            // "POPKID$<pasteKey>"
    | Inline(encoded: string)               // anything else: base64 text

  /** `!config.SESSION_ID`: the value is unset or the empty string. */
  predicate Unset(sessionId: Option<string>) {
    sessionId.None? || sessionId.value == ""
  }

  /** `!sessdata || !sessdata.includes("#")` on `SESSION_ID.split(marker)[1]`. */
  predicate UnusableMegaData(sessdata: Option<string>) {
    sessdata.None? || sessdata.value == "" || !Contains(sessdata.value, "#")
  }

  /** The branch `downloadSessionData` takes for a `SESSION_ID` value,
      together with the pieces it extracts from it. */
  function Classify(sessionId: Option<string>): (r: Source)
    ensures r.Missing? <==> Unset(sessionId)
    ensures r.Mega? || r.MalformedMega? <==>
              !Unset(sessionId) && StartsWith(sessionId.value, MegaMarker)
    ensures r.Pastebin? <==>
              !Unset(sessionId) && !StartsWith(sessionId.value, MegaMarker)
              && StartsWith(sessionId.value, PasteMarker)
    ensures r.Inline? <==>
              !Unset(sessionId) && !StartsWith(sessionId.value, MegaMarker)
              && !StartsWith(sessionId.value, PasteMarker)
    ensures r.Inline? ==> r.encoded == sessionId.value
    ensures r.MalformedMega? ==>
              var d := FirstPiece(sessionId.value[|MegaMarker|..], MegaMarker);
              d == "" || !Contains(d, "#")
    ensures r.Mega? ==>
              var d := FirstPiece(sessionId.value[|MegaMarker|..], MegaMarker);
              StartsWith(d, r.fileId + "#" + r.key)
    ensures r.Mega? ==>
              var d := FirstPiece(sessionId.value[|MegaMarker|..], MegaMarker);
              var n := |r.fileId + "#" + r.key|;
              n == |d| || (n < |d| && d[n] == '#')
    ensures r.Mega? ==> !Contains(r.fileId, "#") && !Contains(r.key, "#")
    ensures r.Mega? ==> StartsWith(sessionId.value, MegaMarker + r.fileId + "#" + r.key)
    ensures r.Pastebin? ==> !Contains(r.pasteKey, PasteMarker)
    ensures r.Pastebin? ==> StartsWith(sessionId.value, PasteMarker + r.pasteKey)
    ensures r.Pastebin? ==>
              var n := |PasteMarker + r.pasteKey|;
              n == |sessionId.value| || OccursAt(sessionId.value, PasteMarker, n)
  {
    if Unset(sessionId) then Missing
    else
      var id := sessionId.value;
      if StartsWith(id, MegaMarker) then
        var sessdata := Segment(id, MegaMarker, 1);
        MarkerDataIsAfterMarker(id, MegaMarker);
        if UnusableMegaData(sessdata) then MalformedMega
        else MegaReference(id, sessdata.value)
      else if StartsWith(id, PasteMarker) then
        MarkerDataIsAfterMarker(id, PasteMarker);
        MarkerDataEnds(id, PasteMarker);
        Pastebin(Segment(id, PasteMarker, 1).value)
      else
        Inline(id)
  }

  /** `const [fileID, decryptKey] = sessdata.split("#")`: the first two
      "#"-separated pieces, any further pieces dropped. */
  function MegaReference(id: string, sessdata: string): (r: Source)
    requires Contains(sessdata, "#")
    requires StartsWith(id, MegaMarker + sessdata)
    ensures r.Mega?
    ensures !Contains(r.fileId, "#") && !Contains(r.key, "#")
    ensures StartsWith(sessdata, r.fileId + "#" + r.key)
    ensures StartsWith(id, MegaMarker + r.fileId + "#" + r.key)
    ensures var n := |r.fileId + "#" + r.key|;
            n == |sessdata| || (n < |sessdata| && sessdata[n] == '#')
  {
    var parts := Split(sessdata, "#");
    SplitFirstTwo(sessdata, "#");
    SecondPieceEnds(sessdata, "#");
    MarkerThenPair(id, MegaMarker, sessdata, parts[0], "#", parts[1]);
    Mega(parts[0], parts[1])
  }

  /** A text starting with a marker and then data starts with the marker
      and any prefix of the data. */
  lemma MarkerThenPair(id: string, marker: string, data: string, a: string, sep: string, b: string)
    requires StartsWith(id, marker + data) && StartsWith(data, a + sep + b)
    ensures StartsWith(id, marker + a + sep + b)
  {
    PrefixOfPrefix(id, marker, data, a + sep + b);
    assert marker + (a + sep + b) == marker + a + sep + b;
  }

  /** `s.split(marker)[1]` for a text starting with `marker` is defined and
      is the text between the marker and the marker's next occurrence. */
  lemma MarkerDataIsAfterMarker(s: string, marker: string)
    requires |marker| > 0 && StartsWith(s, marker)
    ensures Segment(s, marker, 1) == Some(FirstPiece(s[|marker|..], marker))
    ensures StartsWith(s, marker + FirstPiece(s[|marker|..], marker))
  {
    SplitLeadingSeparator(s, marker);
    assert s == marker + s[|marker|..];
  }

  /** The data after a leading marker ends at the end of the text or right
      before the marker's next occurrence. */
  lemma MarkerDataEnds(s: string, marker: string)
    requires |marker| > 0 && StartsWith(s, marker)
    ensures var n := |marker + FirstPiece(s[|marker|..], marker)|;
            n == |s| || OccursAt(s, marker, n)
  {
    var rest := s[|marker|..];
    var w := FirstPiece(rest, marker);
    if |w| < |rest| {
      var n := |marker| + |w|;
      assert s[n..n + |marker|] == rest[|w|..|w| + |marker|];
    }
  }

  /** The contents written to the credentials file: the downloaded Mega
      blob as bytes, or text. */
  datatype Payload = Blob(bytes: seq<bv8>) | Utf8(text: string)

  /** A Pastebin response body: a string, or any other JSON value, given by
      the text `JSON.stringify` makes of it. */
  datatype PasteBody = TextBody(text: string) | JsonBody(stringified: string)

  /** The external calls `downloadSessionData` makes. Each function gives
      the call's result for its argument, `None` when the call throws. */
  datatype Remote = Remote(
    megaDownload: string -> Option<seq<bv8>>,  // File.fromURL(url).download
    pasteGet: string -> Option<PasteBody>,      // axios.get(url), its data
    base64Utf8: string -> string,               // Buffer.from(s, 'base64').toString('utf-8')
    writeOk: bool)                              // fs.promises.writeFile(credsPath, ...) succeeds

  /** One external call, in the order they are made. */
  datatype Io = FetchMega(url: string) | FetchPaste(url: string) | WriteCreds(data: Payload)

  /** The result of `downloadSessionData` and the calls it made. */
  datatype Download = Download(ok: bool, io: seq<Io>)

  function MegaUrl(fileId: string, key: string): string {
    MegaUrlBase + fileId + "#" + key
  }

  function PasteUrl(pasteKey: string): string {
    PasteUrlBase + pasteKey
  }

  /** `typeof data === 'string' ? data : JSON.stringify(data)` */
  function PasteText(body: PasteBody): string {
    match body
    case TextBody(t) => t
    case JsonBody(j) => j
  }

  /** What was written to the credentials file, if the download reported
      success. */
  function Written(d: Download): Option<Payload> {
    if d.ok && |d.io| > 0 && d.io[|d.io| - 1].WriteCreds? then Some(d.io[|d.io| - 1].data)
    else None
  }

  /** The calls `downloadSessionData` makes once it knows where the
      credentials are: one fetch for a Mega or Pastebin reference, then the
      write of what it fetched; an inline value is decoded and written. */
  function FetchCreds(c: Source, remote: Remote): (d: Download)
    ensures d.ok ==> Written(d).Some? && remote.writeOk
    ensures |d.io| <= 2
    ensures c.Missing? || c.MalformedMega? ==> d == Download(false, [])
    ensures c.Mega? ==> |d.io| > 0 && d.io[0] == FetchMega(MegaUrl(c.fileId, c.key))
    ensures c.Pastebin? ==> |d.io| > 0 && d.io[0] == FetchPaste(PasteUrl(c.pasteKey))
    ensures c.Mega? ==>
              var got := remote.megaDownload(MegaUrl(c.fileId, c.key));
              && (d.ok <==> got.Some? && remote.writeOk)
              && (d.ok ==> Written(d) == Some(Blob(got.value)))
    ensures c.Pastebin? ==>
              var got := remote.pasteGet(PasteUrl(c.pasteKey));
              && (d.ok <==> got.Some? && remote.writeOk)
              && (d.ok ==> Written(d) == Some(Utf8(PasteText(got.value))))
    ensures c.Mega? ==>
              var got := remote.megaDownload(MegaUrl(c.fileId, c.key));
              && |d.io| == (if got.Some? then 2 else 1)
              && (got.Some? ==> d.io[1] == WriteCreds(Blob(got.value)))
    ensures c.Pastebin? ==>
              var got := remote.pasteGet(PasteUrl(c.pasteKey));
              && |d.io| == (if got.Some? then 2 else 1)
              && (got.Some? ==> d.io[1] == WriteCreds(Utf8(PasteText(got.value))))
    ensures forall i | 0 <= i < |d.io| :: d.io[i].FetchMega? ==> i == 0 && c.Mega?
    ensures forall i | 0 <= i < |d.io| :: d.io[i].FetchPaste? ==> i == 0 && c.Pastebin?
    ensures c.Inline? ==>
              d == Download(remote.writeOk, [WriteCreds(Utf8(remote.base64Utf8(c.encoded)))])
  {
    match c
    case Missing => Download(false, [])
    case MalformedMega => Download(false, [])
    case Mega(fileId, key) =>
      var url := MegaUrl(fileId, key);
      (match remote.megaDownload(url)
       case None => Download(false, [FetchMega(url)])
       case Some(bytes) => Download(remote.writeOk, [FetchMega(url), WriteCreds(Blob(bytes))]))
    case Pastebin(pasteKey) =>
      var url := PasteUrl(pasteKey);
      (match remote.pasteGet(url)
       case None => Download(false, [FetchPaste(url)])
       case Some(body) => Download(remote.writeOk, [FetchPaste(url), WriteCreds(Utf8(PasteText(body)))]))
    case Inline(encoded) =>
      Download(remote.writeOk, [WriteCreds(Utf8(remote.base64Utf8(encoded)))])
  }

  /** `downloadSessionData()`: classify `SESSION_ID`, fetch or decode the
      credentials, write them to the credentials file and report success. */
  function DownloadSessionData(sessionId: Option<string>, remote: Remote): (d: Download)
    ensures d.ok ==> Written(d).Some? && remote.writeOk
    ensures |d.io| <= 2
    ensures Unset(sessionId) ==> d == Download(false, [])
    ensures Classify(sessionId).MalformedMega? ==> d == Download(false, [])
    ensures forall i | 0 <= i < |d.io| :: d.io[i].FetchMega? ==>
              i == 0 && StartsWith(sessionId.value, MegaMarker)
              && StartsWith(d.io[i].url, MegaUrlBase) && Contains(d.io[i].url, "#")
    ensures forall i | 0 <= i < |d.io| :: d.io[i].FetchPaste? ==>
              i == 0 && StartsWith(sessionId.value, PasteMarker)
              && !StartsWith(sessionId.value, MegaMarker)
    ensures var c := Classify(sessionId);
            c.Mega? ==> |d.io| > 0 && d.io[0] == FetchMega(MegaUrl(c.fileId, c.key))
    ensures var c := Classify(sessionId);
            c.Pastebin? ==> |d.io| > 0 && d.io[0] == FetchPaste(PasteUrl(c.pasteKey))
    ensures var c := Classify(sessionId);
            c.Mega? ==>
              var got := remote.megaDownload(MegaUrl(c.fileId, c.key));
              && (d.ok <==> got.Some? && remote.writeOk)
              && (d.ok ==> Written(d) == Some(Blob(got.value)))
    ensures var c := Classify(sessionId);
            c.Pastebin? ==>
              var got := remote.pasteGet(PasteUrl(c.pasteKey));
              && (d.ok <==> got.Some? && remote.writeOk)
              && (d.ok ==> Written(d) == Some(Utf8(PasteText(got.value))))
    ensures var c := Classify(sessionId);
            c.Mega? ==>
              var got := remote.megaDownload(MegaUrl(c.fileId, c.key));
              && |d.io| == (if got.Some? then 2 else 1)
              && (got.Some? ==> d.io[1] == WriteCreds(Blob(got.value)))
    ensures var c := Classify(sessionId);
            c.Pastebin? ==>
              var got := remote.pasteGet(PasteUrl(c.pasteKey));
              && |d.io| == (if got.Some? then 2 else 1)
              && (got.Some? ==> d.io[1] == WriteCreds(Utf8(PasteText(got.value))))
    ensures Classify(sessionId).Inline? ==>
              d == Download(remote.writeOk, [WriteCreds(Utf8(remote.base64Utf8(sessionId.value)))])
  {
    var c := Classify(sessionId);
    if c.Mega? then
      var url := MegaUrl(c.fileId, c.key);
      assert OccursAt(url, "#", |MegaUrlBase + c.fileId|);
      FetchCreds(c, remote)
    else
      FetchCreds(c, remote)
  }

  /** The result of `init`: whether the QR fallback was switched on, the
      download it attempted, and how many times it called `start`. */
  datatype Boot = Boot(useQR: bool, download: Option<Download>, starts: nat)

  /** Credentials are on disk when `start` runs: either the file was already
      there or the download wrote it. */
  predicate CredsReady(credsExists: bool, download: Option<Download>) {
    credsExists || (download.Some? && Written(download.value).Some?)
  }

  /** `init()`: use the local credentials file when it exists, otherwise
      try `downloadSessionData` and fall back to QR pairing when it fails;
      `start` is called once either way. */
  function Init(credsExists: bool, sessionId: Option<string>, remote: Remote): (b: Boot)
    ensures b.starts == 1
    ensures b.useQR <==> !CredsReady(credsExists, b.download)
    ensures credsExists ==> b.download.None? && !b.useQR
    ensures !credsExists ==> b.download == Some(DownloadSessionData(sessionId, remote))
  {
    if credsExists then Boot(false, None, 1)
    else
      var d := DownloadSessionData(sessionId, remote);
      if d.ok then Boot(false, Some(d), 1)
      else Boot(true, Some(d), 1)
  }

  /** With no local credentials file, an unset or malformed `SESSION_ID`
      leads to QR pairing without any external call. */
  lemma NoUsableIdFallsBackToQr(sessionId: Option<string>, remote: Remote)
    requires Unset(sessionId) || Classify(sessionId).MalformedMega?
    ensures Init(false, sessionId, remote).useQR
    ensures Init(false, sessionId, remote).download == Some(Download(false, []))
  {
  }

  /** A well-formed Mega reference is fetched from
      `https://mega.nz/file/<fileId>#<key>`, and a successful download and
      write leave exactly the downloaded bytes in the credentials file. */
  lemma MegaDownloadUrl(fileId: string, key: string, remote: Remote)
    requires !Contains(fileId, "#") && !Contains(key, "#")
    requires !Contains(fileId + "#" + key, MegaMarker)
    ensures var d := DownloadSessionData(Some(MegaMarker + fileId + "#" + key), remote);
            |d.io| > 0 && d.io[0] == FetchMega("https://mega.nz/file/" + fileId + "#" + key)
            && (d.ok <==> remote.megaDownload(d.io[0].url).Some? && remote.writeOk)
            && (d.ok ==> Written(d) == Some(Blob(remote.megaDownload(d.io[0].url).value)))
  {
    MegaRoundTrip(fileId, key);
  }

  /** A Pastebin reference is fetched from `https://pastebin.com/raw/`
      followed by the text after the marker; a non-string body is written
      as its JSON text. */
  lemma PasteDownloadUrl(pasteKey: string, remote: Remote)
    requires !Contains(pasteKey, PasteMarker)
    ensures var d := DownloadSessionData(Some(PasteMarker + pasteKey), remote);
            |d.io| > 0 && d.io[0] == FetchPaste("https://pastebin.com/raw/" + pasteKey)
            && (d.ok <==> remote.pasteGet(d.io[0].url).Some? && remote.writeOk)
            && (d.ok ==> Written(d) == Some(Utf8(PasteText(remote.pasteGet(d.io[0].url).value))))
  {
    var id := PasteMarker + pasteKey;
    assert id[0] == 'P' && MegaMarker[0] == 'X';
    assert !StartsWith(id, MegaMarker);
    assert StartsWith(id, PasteMarker);
    assert id[|PasteMarker|..] == pasteKey;
    SplitPieces(pasteKey, PasteMarker);
    MarkerDataIsAfterMarker(id, PasteMarker);
  }

  /** A well-formed Mega reference round-trips: writing a file id and a key
      after the marker, joined by "#", classifies back to that file id and
      key, as long as neither holds a "#" and the marker does not recur. */
  lemma MegaRoundTrip(fileId: string, key: string)
    requires !Contains(fileId, "#") && !Contains(key, "#")
    requires !Contains(fileId + "#" + key, MegaMarker)
    ensures Classify(Some(MegaMarker + fileId + "#" + key)) == Mega(fileId, key)
  {
    assert fileId + "#" + key + "" == fileId + "#" + key;
    assert MegaMarker + fileId + "#" + key + "" == MegaMarker + fileId + "#" + key;
    MegaFirstTwoPieces(fileId, key, "");
  }

  /** Only the first two "#"-separated pieces are kept: anything after a
      second "#" is dropped, and empty pieces are accepted. */
  lemma MegaFirstTwoPieces(fileId: string, key: string, tail: string)
    requires !Contains(fileId, "#") && !Contains(key, "#")
    requires tail == "" || tail[0] == '#'
    requires !Contains(fileId + "#" + key + tail, MegaMarker)
    ensures Classify(Some(MegaMarker + fileId + "#" + key + tail)) == Mega(fileId, key)
  {
    var rest := fileId + "#" + key + tail;
    var id := MegaMarker + rest;
    assert id == MegaMarker + fileId + "#" + key + tail;
    assert StartsWith(id, MegaMarker) && Segment(id, MegaMarker, 1) == Some(rest) by {
      assert id[..|MegaMarker|] == MegaMarker && id[|MegaMarker|..] == rest;
      MarkerDataIsAfterMarker(id, MegaMarker);
      SplitWithoutSeparator(rest, MegaMarker);
    }
    assert Contains(rest, "#") by {
      assert rest[|fileId|..|fileId| + 1] == "#";
      assert OccursAt(rest, "#", |fileId|);
    }
    SplitTwoPieces(rest, fileId, "#", key, tail);
  }

  /** The documented example: a Mega reference splits into its file id and
      its key. */
  lemma MegaExample()
    ensures Classify(Some("XEON-XTECH~abc123#key456")) == Mega("abc123", "key456")
  {
    assert MegaMarker + "abc123" + "#" + "key456" == "XEON-XTECH~abc123#key456";
    assert "abc123" + "#" + "key456" == "abc123#key456";
    NotContainsByFirstChar("abc123", "#");
    NotContainsByFirstChar("key456", "#");
    NotContainsByFirstChar("abc123#key456", MegaMarker);
    MegaRoundTrip("abc123", "key456");
  }

  /** An empty file id is not rejected, and a third piece is dropped. */
  lemma MegaExtraPieceExample()
    ensures Classify(Some("XEON-XTECH~#key456#extra")) == Mega("", "key456")
  {
    assert MegaMarker + "" + "#" + "key456" + "#extra" == "XEON-XTECH~#key456#extra";
    assert "" + "#" + "key456" + "#extra" == "#key456#extra";
    NotContainsByFirstChar("", "#");
    NotContainsByFirstChar("key456", "#");
    NotContainsByFirstChar("#key456#extra", MegaMarker);
    MegaFirstTwoPieces("", "key456", "#extra");
  }
}

=== FILE: status_watch.dfy ===
/** The second `messages.upsert` handler: automatic reactions to private
    messages and the automatic handling of status updates. Configuration
    values are JavaScript values, so their truthiness is modelled. */
module StatusWatch {
  import opened Wrappers
  import opened Text

  const GroupSuffix: string := "@g.us"
  const StatusJid: string := "status@broadcast"

  /** A configuration value as read from the environment. */
  datatype JsValue = Undefined | JsBool(b: bool) | JsString(s: string)

  /** JavaScript truthiness: note that the string "false" is truthy. */
  predicate Truthy(v: JsValue) {
    match v
    case Undefined => false
    case JsBool(b) => b
    case JsString(s) => s != ""
  }

  datatype Config = Config(
    autoReact: JsValue,         // AUTO_REACT
    autoStatusSeen: JsValue,    // AUTO_STATUS_SEEN
    autoStatusReact: JsValue,   // AUTO_STATUS_REACT, compared with === 'true'
    autoStatusReply: JsValue,   // AUTO_STATUS_REPLY
    statusReadMsg: Option<string>)  // STATUS_READ_MSG

  datatype Key = Key(remoteJid: string, fromMe: bool)

  /** An upserted message; `content` is `mek.message`, `None` when absent. */
  datatype Message = Message(key: Key, content: Option<Content>)
  datatype Content = Content(hasProtocolMessage: bool)

  /** The status reply text: the configured one or the built-in default. */
  datatype ReplyText = Custom(text: string) | DefaultStatusText

  datatype Action =
    | AutoReact               // doReact(randomEmoji, mek, Matrix)
    | MarkStatusRead          // Matrix.readMessages([mek.key])
    | StatusReact             // doStatusReact(Matrix, mek)
    | StatusReply(text: ReplyText)  // Matrix.sendMessage(remoteJid, { text }, { quoted: mek })

  /** The early return: no first message, no content, sent by the bot
      itself, or a protocol message. */
  predicate Ignored(messages: seq<Message>) {
    || |messages| == 0
    || messages[0].content.None?
    || messages[0].key.fromMe
    || messages[0].content.value.hasProtocolMessage
  }

  /** `config.STATUS_READ_MSG || '...default...'` */
  function ReplyFor(cfg: Config): ReplyText {
    match cfg.statusReadMsg
    case Some(t) => if t != "" then Custom(t) else DefaultStatusText
    case None => DefaultStatusText
  }

  /** `[a]` when `c` holds, nothing otherwise. */
  function When(c: bool, a: Action): seq<Action> {
    if c then [a] else []
  }

  /** The calls the handler makes for one `messages.upsert` batch, in order. */
  function Handle(messages: seq<Message>, cfg: Config): (acts: seq<Action>)
    ensures Ignored(messages) ==> acts == []
    ensures AutoReact in acts <==>
              !Ignored(messages) && Truthy(cfg.autoReact)
              && !EndsWith(messages[0].key.remoteJid, GroupSuffix)
    ensures MarkStatusRead in acts <==>
              !Ignored(messages) && messages[0].key.remoteJid == StatusJid
              && Truthy(cfg.autoStatusSeen)
    ensures StatusReact in acts <==>
              !Ignored(messages) && messages[0].key.remoteJid == StatusJid
              && cfg.autoStatusReact == JsString("true")
    ensures StatusReply(ReplyFor(cfg)) in acts <==>
              !Ignored(messages) && messages[0].key.remoteJid == StatusJid
              && Truthy(cfg.autoStatusReply)
  {
    if Ignored(messages) then []
    else
      var jid := messages[0].key.remoteJid;
      var status := jid == StatusJid;
      When(Truthy(cfg.autoReact) && !EndsWith(jid, GroupSuffix), AutoReact)
      + When(status && Truthy(cfg.autoStatusSeen), MarkStatusRead)
      + When(status && cfg.autoStatusReact == JsString("true"), StatusReact)
      + When(status && Truthy(cfg.autoStatusReply), StatusReply(ReplyFor(cfg)))
  }

  /** The calls come in the order of the handler's body, and every reply is
      the configured or default status text. */
  lemma HandleOrder(messages: seq<Message>, cfg: Config)
    ensures var acts := Handle(messages, cfg);
            && (forall i, j | 0 <= i < j < |acts| :: Rank(acts[i]) < Rank(acts[j]))
            && (forall a | a in acts && a.StatusReply? :: a == StatusReply(ReplyFor(cfg)))
  {
  }

  /** The position of each kind of call in the handler's body. */
  function Rank(a: Action): nat {
    match a
    case AutoReact => 0
    case MarkStatusRead => 1
    case StatusReact => 2
    case StatusReply(_) => 3
  }

  /** Truthiness versus strict comparison on a status update: `AUTO_REACT`
      set to the string "false" is truthy, and a status jid is not a group
      jid, so the ordinary reaction still fires; `AUTO_STATUS_REACT` set to
      the boolean `true` is not the string "true", so the status reaction
      does not. */
  lemma TruthinessOnStatus(mek: Message, cfg: Config)
    requires mek.content.Some? && !mek.key.fromMe && !mek.content.value.hasProtocolMessage
    requires mek.key.remoteJid == StatusJid
    requires cfg.autoReact == JsString("false") && cfg.autoStatusReact == JsBool(true)
    ensures AutoReact in Handle([mek], cfg)
    ensures StatusReact !in Handle([mek], cfg)
  {
    assert StatusJid[|StatusJid| - |GroupSuffix|..] == "dcast";
  }
}

=== FILE: supervisor.dfy ===
/** The `connection.update` handler as a state machine.

    The state holds the two process-wide flags (`initialConnection` and
    `global.isLiveBioRunning`), whether the session directory still exists,
    whether the process has exited, and counters for the sockets started,
    announcements completed and bio intervals started. Each event is handled
    to completion before the next one (handlers are not interleaved). */
module Supervisor {
  import opened Wrappers
  import Announce

  /** `DisconnectReason.loggedOut` in the Baileys library. */
  const LoggedOut: int := 401

  datatype Event =
    | Close(statusCode: Option<int>)   // `lastDisconnect.error?.output?.statusCode`, None when absent
    | Open(greetingSent: bool)         // whether `sendMessage` of the greeting resolved
    | StartupFailed                    // `start()` threw before wiring the socket

  /** The external calls the handler makes, in order. */
  datatype Effect =
    | StartSocket                 // start(): a new socket and fresh handlers
    | RemoveSessionDir            // fs.rmSync(sessionDir, { recursive: true, force: true })
    | ExitProcess(status: int)    // process.exit(status)
    | UpdateBio                   // updateBio(Matrix)
    | SendGreeting                // Matrix.sendMessage(Matrix.user.id, ...)
    | FollowChannel               // Matrix.query(... 'follow' ...)
    | AcceptInvite(invite: string) // Matrix.groupAcceptInvite(inviteCode)
    | StartBioInterval            // setInterval(updateLiveBio, 10000)

  datatype State = State(
    initialConnection: bool,
    isLiveBioRunning: bool,
    sessionDirExists: bool,
    exited: bool,
    starts: nat,              // sockets started so far; the current one is number `starts`
    announcements: nat,       // announcements that ran to completion
    intervals: nat,           // bio intervals started
    intervalSocket: Option<nat>)  // the socket the bio interval's closure holds

  datatype Transition = Transition(next: State, effects: seq<Effect>)

  /** Right after `init`: one socket started, nothing announced yet. */
  function Initial(): State {
    State(true, false, true, false, 1, 0, 0, None)
  }

  /** The relations between the flags and the counters that every reachable
      state keeps. */
  predicate Valid(s: State) {
    && s.starts >= 1
    && s.intervals == (if s.isLiveBioRunning then 1 else 0)
    && s.announcements == (if s.initialConnection then 0 else 1)
    && (!s.initialConnection ==> s.isLiveBioRunning)
    && (s.intervalSocket.Some? <==> s.isLiveBioRunning)
    && (s.intervalSocket.Some? ==> 1 <= s.intervalSocket.value <= s.starts)
    && (!s.sessionDirExists ==> s.exited)
  }

  /** The number of times `e` occurs in `fx`. */
  function Count(fx: seq<Effect>, e: Effect): nat {
    multiset(fx)[e]
  }

  /** `if (!global.isLiveBioRunning) { global.isLiveBioRunning = true; setInterval(...) }` */
  function EnsureInterval(s: State): Transition {
    if s.isLiveBioRunning then Transition(s, [])
    else
      Transition(s.(isLiveBioRunning := true, intervals := s.intervals + 1,
                    intervalSocket := Some(s.starts)),
                 [StartBioInterval])
  }

  /** The follow request and the group join, started together by
      `Promise.all`; each catches its own failure, and the join is skipped
      when the link holds no invite code. */
  function JoinEffects(groupLink: string): (fx: seq<Effect>)
    ensures multiset(fx)[FollowChannel] == 1
    ensures multiset(fx)[StartBioInterval] == 0 && multiset(fx)[StartSocket] == 0
    ensures UpdateBio !in fx && SendGreeting !in fx && RemoveSessionDir !in fx
  {
    [FollowChannel] +
    (match Announce.InviteCode(groupLink)
     case Some(code) => [AcceptInvite(code)]
     case None => [])
  }

  /** With the configured link the bot follows the channel and joins the
      group with the code taken from the link. */
  lemma ConfiguredJoin()
    ensures JoinEffects(Announce.GroupLink) == [FollowChannel, AcceptInvite(Announce.InviteCodeText)]
  {
    Announce.ConfiguredInviteCode();
  }

  /** The first open whose greeting went out: bio update, greeting, channel
      follow and group join, then the bio interval if none is running, and
      finally `initialConnection = false`. */
  function Announcement(s: State): Transition {
    var iv := EnsureInterval(s);
    Transition(iv.next.(initialConnection := false, announcements := s.announcements + 1),
               [UpdateBio, SendGreeting] + JoinEffects(Announce.GroupLink) + iv.effects)
  }

  /** One event handled by the current socket's `connection.update` handler. */
  function Step(s: State, e: Event): (t: Transition)
    ensures s.exited ==> t == Transition(s, [])
    ensures Valid(s) ==> Valid(t.next)
    ensures s.isLiveBioRunning ==> t.next.isLiveBioRunning && t.next.intervalSocket == s.intervalSocket
    ensures s.exited ==> t.next.exited
    ensures !s.initialConnection ==> !t.next.initialConnection
    ensures s.initialConnection && !t.next.initialConnection ==> e == Open(true)
    ensures !t.next.sessionDirExists ==> !s.sessionDirExists || e == Close(Some(LoggedOut))
    ensures !s.exited && e.Close? && e.statusCode != Some(LoggedOut) ==>
              t.effects == [StartSocket] && !t.next.exited
              && t.next.sessionDirExists == s.sessionDirExists
    ensures !s.exited && e == Close(Some(LoggedOut)) ==>
              t.effects == [RemoveSessionDir, ExitProcess(1)]
              && t.next.exited && !t.next.sessionDirExists
  {
    if s.exited then Transition(s, [])
    else
      match e
      case StartupFailed =>
        Transition(s.(exited := true), [ExitProcess(1)])
      case Close(code) =>
        if code != Some(LoggedOut) then
          Transition(s.(starts := s.starts + 1), [StartSocket])
        else
          Transition(s.(sessionDirExists := false, exited := true),
                     [RemoveSessionDir, ExitProcess(1)])
      case Open(greetingSent) =>
        if s.initialConnection then
          if !greetingSent then
            // the rejected `sendMessage` ends the handler early
            Transition(s, [UpdateBio, SendGreeting])
          else Announcement(s)
        else
          EnsureInterval(s)
  }

  /** The counters count the calls of one step. */
  lemma StepCounts(s: State, e: Event)
    ensures var t := Step(s, e);
            && Count(t.effects, StartBioInterval) + s.intervals == t.next.intervals
            && Count(t.effects, StartSocket) + s.starts == t.next.starts
            && Count(t.effects, FollowChannel) + s.announcements == t.next.announcements
  {
    if !s.exited && e == Open(true) && s.initialConnection {
      assert Step(s, e) == Announcement(s);
      AnnouncementCounts(s);
    }
  }

  lemma AnnouncementCounts(s: State)
    ensures var t := Announcement(s);
            && Count(t.effects, StartBioInterval) + s.intervals == t.next.intervals
            && Count(t.effects, StartSocket) + s.starts == t.next.starts
            && Count(t.effects, FollowChannel) + s.announcements == t.next.announcements
  {
    var t := Announcement(s);
    var join := JoinEffects(Announce.GroupLink);
    assert t.effects == [UpdateBio, SendGreeting] + join + EnsureInterval(s).effects;
    assert multiset(t.effects)
        == multiset{UpdateBio, SendGreeting} + multiset(join) + multiset(EnsureInterval(s).effects);
  }

  /** The announcement calls happen only on an open while
      `initialConnection` holds, and the session directory is removed
      exactly on a logout of a live process. */
  lemma StepGuards(s: State, e: Event)
    ensures var t := Step(s, e);
            && ((UpdateBio in t.effects || SendGreeting in t.effects) ==> s.initialConnection && e.Open?)
            && (RemoveSessionDir in t.effects <==> !s.exited && e == Close(Some(LoggedOut)))
  {
  }

  /** What an open does: the first one whose greeting went out updates the
      bio, greets, follows the channel and clears `initialConnection`,
      starting the interval only when none runs; any later open just makes
      sure the interval runs. No open exits, starts a socket or touches the
      session directory, and one whose greeting failed has made only the
      bio update and the greeting. A start-up failure exits with status 1. */
  lemma OpenTransitions(s: State, e: Event)
    requires !s.exited
    ensures var t := Step(s, e);
            s.initialConnection && e == Open(true) ==>
              && !t.next.initialConnection && t.next.isLiveBioRunning
              && |t.effects| >= 2 && t.effects[..2] == [UpdateBio, SendGreeting]
              && FollowChannel in t.effects
              && AcceptInvite(Announce.InviteCodeText) in t.effects
              && (StartBioInterval in t.effects <==> !s.isLiveBioRunning)
    ensures var t := Step(s, e);
            !s.initialConnection && e.Open? ==>
              t.next.isLiveBioRunning && (t.effects == [StartBioInterval] <==> !s.isLiveBioRunning)
    ensures var t := Step(s, e);
            e.Open? ==>
              && !t.next.exited && t.next.sessionDirExists == s.sessionDirExists
              && t.next.starts == s.starts
    ensures s.initialConnection && e == Open(false) ==>
              Step(s, e) == Transition(s, [UpdateBio, SendGreeting])
    ensures var t := Step(s, e);
            e == StartupFailed ==> t.effects == [ExitProcess(1)] && t.next.exited
  {
    if s.initialConnection && e == Open(true) {
      assert Step(s, e) == Announcement(s);
      AnnouncementEffects(s);
    }
  }

  lemma AnnouncementEffects(s: State)
    ensures var t := Announcement(s);
            && !t.next.initialConnection && t.next.isLiveBioRunning
            && |t.effects| >= 2 && t.effects[..2] == [UpdateBio, SendGreeting]
            && FollowChannel in t.effects
            && AcceptInvite(Announce.InviteCodeText) in t.effects
            && (StartBioInterval in t.effects <==> !s.isLiveBioRunning)
  {
    var iv := EnsureInterval(s).effects;
    var join := JoinEffects(Announce.GroupLink);
    assert AcceptInvite(Announce.InviteCodeText) in join by {
      ConfiguredJoin();
    }
    AnnouncementLayout(Announcement(s).effects, join, iv, AcceptInvite(Announce.InviteCodeText));
  }

  /** The announcement's calls: bio and greeting first, then the follow
      and the group join, then the interval's. */
  lemma AnnouncementLayout(fx: seq<Effect>, join: seq<Effect>, iv: seq<Effect>, invite: Effect)
    requires fx == [UpdateBio, SendGreeting] + join + iv
    requires multiset(join)[FollowChannel] == 1 && multiset(join)[StartBioInterval] == 0
    requires invite in join
    ensures |fx| >= 2 && fx[..2] == [UpdateBio, SendGreeting]
    ensures FollowChannel in fx && invite in fx
    ensures StartBioInterval in fx <==> StartBioInterval in iv
  {
    assert FollowChannel in multiset(join);
    assert StartBioInterval !in multiset(join);
    assert multiset(fx) == multiset{UpdateBio, SendGreeting} + multiset(join) + multiset(iv);
  }

  /** The first open after start-up starts exactly one bio interval and
      follows the channel exactly once. */
  lemma FirstOpenAnnouncesOnce()
    ensures var t := Run(Initial(), [Open(true)]);
            Count(t.effects, StartBioInterval) == 1 && Count(t.effects, FollowChannel) == 1
  {
    var s := Initial();
    var t := Step(s, Open(true));
    OpenTransitions(s, Open(true));
    StepCounts(s, Open(true));
    assert Valid(s);
    assert Run(s, [Open(true)]).effects == t.effects + [];
  }

  /** A sequence of events handled one after the other. */
  function Run(s: State, events: seq<Event>): (t: Transition)
    decreases |events|
  {
    if |events| == 0 then Transition(s, [])
    else
      var first := Step(s, events[0]);
      var rest := Run(first.next, events[1..]);
      Transition(rest.next, first.effects + rest.effects)
  }

  /** Every state reachable from a valid state is valid. */
  lemma {:induction false} RunKeepsValid(s: State, events: seq<Event>)
    requires Valid(s)
    ensures Valid(Run(s, events).next)
    decreases |events|
  {
    if |events| > 0 {
      RunKeepsValid(Step(s, events[0]).next, events[1..]);
    }
  }

  /** The counters count the calls: over any run, the bio intervals, sockets
      and follow requests issued equal the growth of the matching counter. */
  lemma {:induction false} RunCounts(s: State, events: seq<Event>)
    ensures var t := Run(s, events);
            && Count(t.effects, StartBioInterval) + s.intervals == t.next.intervals
            && Count(t.effects, StartSocket) + s.starts == t.next.starts
            && Count(t.effects, FollowChannel) + s.announcements == t.next.announcements
    decreases |events|
  {
    if |events| > 0 {
      var first := Step(s, events[0]);
      var rest := Run(first.next, events[1..]);
      RunCounts(first.next, events[1..]);
      StepCounts(s, events[0]);
      assert multiset(first.effects + rest.effects) == multiset(first.effects) + multiset(rest.effects);
    }
  }

  /** At most one bio interval and at most one completed announcement per
      process, whatever the connection does. */
  lemma SingleIntervalSingleAnnouncement(events: seq<Event>)
    ensures var t := Run(Initial(), events);
            && Count(t.effects, StartBioInterval) <= 1
            && Count(t.effects, FollowChannel) <= 1
            && t.next.intervals <= 1
            && t.next.announcements <= 1
  {
    RunKeepsValid(Initial(), events);
    RunCounts(Initial(), events);
  }

  /** Once the process has exited no event has any effect. */
  lemma {:induction false} ExitedIsTerminal(s: State, events: seq<Event>)
    requires s.exited
    ensures Run(s, events) == Transition(s, [])
    decreases |events|
  {
    if |events| > 0 {
      ExitedIsTerminal(s, events[1..]);
    }
  }

  /** A logout removes the session directory and exits; nothing is
      reconnected afterwards, whatever events follow. */
  lemma LogoutIsFinal(s: State, events: seq<Event>)
    requires !s.exited
    ensures var t := Run(s, [Close(Some(LoggedOut))] + events);
            && t.effects == [RemoveSessionDir, ExitProcess(1)]
            && t.next.exited && !t.next.sessionDirExists
            && t.next.starts == s.starts
  {
    var first := Step(s, Close(Some(LoggedOut)));
    assert ([Close(Some(LoggedOut))] + events)[1..] == events;
    ExitedIsTerminal(first.next, events);
  }

  /** In a reachable state, a re-established connection does nothing: the
      interval was already started by the announcement. */
  lemma ReopenIsQuiet(s: State, greetingSent: bool)
    requires Valid(s) && !s.initialConnection
    ensures Step(s, Open(greetingSent)) == Transition(s, [])
  {
  }

  /** The bio interval keeps the socket it was started with: after any
      reconnects it still updates the bio through that first socket. */
  lemma {:induction false} IntervalKeepsItsSocket(s: State, events: seq<Event>)
    requires s.isLiveBioRunning
    ensures Run(s, events).next.intervalSocket == s.intervalSocket
    decreases |events|
  {
    if |events| > 0 {
      IntervalKeepsItsSocket(Step(s, events[0]).next, events[1..]);
    }
  }
}

=== FILE: text.dfy ===
/** The JavaScript string operations the bot's decision rules rely on:
    `startsWith`, `endsWith`, `includes`, `split` with a non-empty separator,
    array indexing of a split result, and `toLowerCase`. */
module Text {
  import opened Wrappers

  /** `s.startsWith(p)` */
  predicate StartsWith(s: string, p: string) {
    |p| <= |s| && s[..|p|] == p
  }

  /** A prefix of a prefix is a prefix. */
  lemma PrefixOfPrefix(a: string, p: string, b: string, c: string)
    requires StartsWith(a, p + b) && StartsWith(b, c)
    ensures StartsWith(a, p + c)
  {
    assert (p + b)[..|p + c|] == p + c;
    assert a[..|p + c|] == (p + b)[..|p + c|];
  }

  /** `s.endsWith(p)` */
  predicate EndsWith(s: string, p: string) {
    |p| <= |s| && s[|s| - |p|..] == p
  }

  /** `pat` occurs in `s` starting at index `i`. */
  predicate OccursAt(s: string, pat: string, i: int) {
    0 <= i && i + |pat| <= |s| && s[i..i + |pat|] == pat
  }

  /** `s.includes(pat)` */
  predicate Contains(s: string, pat: string) {
    exists i | 0 <= i <= |s| :: OccursAt(s, pat, i)
  }

  /** A text none of whose characters is the first character of `pat`
      does not contain `pat`. */
  lemma NotContainsByFirstChar(s: string, pat: string)
    requires |pat| > 0
    requires forall j | 0 <= j < |s| :: s[j] != pat[0]
    ensures !Contains(s, pat)
  {
    forall j | 0 <= j <= |s|
      ensures !OccursAt(s, pat, j)
    {
      if OccursAt(s, pat, j) {
        OccursAtFirstChar(s, pat, j);
        assert false;
      }
    }
  }

  lemma OccursAtFirstChar(s: string, pat: string, j: int)
    requires |pat| > 0 && OccursAt(s, pat, j)
    ensures s[j] == pat[0]
  {
    assert s[j..j + |pat|][0] == s[j];
  }

  /** `s.indexOf(pat, k)`: the first occurrence of `pat` at or after `k`. */
  function IndexFrom(s: string, pat: string, k: nat): (r: Option<nat>)
    ensures r.Some? ==> k <= r.value && r.value + |pat| <= |s|
    decreases |s| - k
  {
    if k + |pat| > |s| then None
    else if s[k..k + |pat|] == pat then Some(k)
    else IndexFrom(s, pat, k + 1)
  }

  /** `IndexFrom` finds the first occurrence at or after `k`, and finds
      none only when there is none. */
  lemma {:induction false} IndexFromIsFirst(s: string, pat: string, k: nat)
    ensures var r := IndexFrom(s, pat, k);
            r.Some? ==> OccursAt(s, pat, r.value)
    ensures var r := IndexFrom(s, pat, k);
            r.Some? ==> forall j | k <= j < r.value :: !OccursAt(s, pat, j)
    ensures IndexFrom(s, pat, k).None? ==> forall j | k <= j :: !OccursAt(s, pat, j)
    decreases |s| - k
  {
    if k + |pat| <= |s| && s[k..k + |pat|] != pat {
      IndexFromIsFirst(s, pat, k + 1);
    }
  }

  /** `s.split(sep)` for a non-empty separator: the pieces between the
      non-overlapping occurrences of `sep`, scanned from the left. */
  function Split(s: string, sep: string): (parts: seq<string>)
    requires |sep| > 0
    ensures |parts| >= 1
    decreases |s|
  {
    match IndexFrom(s, sep, 0)
    case None => [s]
    case Some(i) => [s[..i]] + Split(s[i + |sep|..], sep)
  }

  /** No piece of a split contains the separator; the first piece is a
      prefix of the text; there is more than one piece exactly when the
      separator occurs, and then it occurs right after the first piece. */
  lemma {:induction false} SplitPieces(s: string, sep: string)
    requires |sep| > 0
    ensures forall k | 0 <= k < |Split(s, sep)| :: !Contains(Split(s, sep)[k], sep)
    ensures StartsWith(s, Split(s, sep)[0])
    ensures |Split(s, sep)| == 1 <==> !Contains(s, sep)
    ensures |Split(s, sep)| > 1 ==> OccursAt(s, sep, |Split(s, sep)[0]|)
    decreases |s|
  {
    IndexFromIsFirst(s, sep, 0);
    match IndexFrom(s, sep, 0)
    case None =>
    case Some(i) =>
      var rest := s[i + |sep|..];
      SplitPieces(rest, sep);
      PrefixBeforeFirstIsClean(s, sep, i);
      var parts := Split(s, sep);
      assert parts == [s[..i]] + Split(rest, sep);
      forall k | 0 <= k < |parts|
        ensures !Contains(parts[k], sep)
      {
        if k > 0 {
          assert parts[k] == Split(rest, sep)[k - 1];
        }
      }
  }

  /** The text before the first occurrence of `sep` does not contain `sep`. */
  lemma PrefixBeforeFirstIsClean(s: string, sep: string, i: nat)
    requires |sep| > 0 && OccursAt(s, sep, i)
    requires forall j | 0 <= j < i :: !OccursAt(s, sep, j)
    ensures !Contains(s[..i], sep)
  {
    forall j | 0 <= j <= i && OccursAt(s[..i], sep, j)
      ensures false
    {
      assert s[..i][j..j + |sep|] == s[j..j + |sep|];
      assert OccursAt(s, sep, j);
    }
  }

  /** When the separator occurs, the text starts with the first two pieces
      joined by the separator, and neither piece contains it. */
  lemma SplitFirstTwo(s: string, sep: string)
    requires |sep| > 0 && Contains(s, sep)
    ensures |Split(s, sep)| >= 2
    ensures !Contains(Split(s, sep)[0], sep) && !Contains(Split(s, sep)[1], sep)
    ensures StartsWith(s, Split(s, sep)[0] + sep + Split(s, sep)[1])
  {
    ContainsHasFirstIndex(s, sep);
    var i := IndexFrom(s, sep, 0).value;
    SplitAtFirst(s, sep, i);
    var first, rest := s[..i], s[i + |sep|..];
    var second := FirstPiece(rest, sep);
    assert Split(s, sep)[0] == first && Split(s, sep)[1] == second;
    assert !Contains(first, sep) by {
      IndexFromIsFirst(s, sep, 0);
      PrefixBeforeFirstIsClean(s, sep, i);
    }
    assert StartsWith(s, first + sep + second) by {
      IndexFromIsFirst(s, sep, 0);
      AroundOccurrence(s, sep, i);
      PrefixOfPrefix(s, first + sep, rest, second);
    }
  }

  /** When a one-character separator occurs, the second piece runs up to
      the end of the text or up to the next separator. */
  lemma SecondPieceEnds(s: string, sep: string)
    requires |sep| == 1 && Contains(s, sep)
    ensures |Split(s, sep)| >= 2
    ensures var n := |Split(s, sep)[0] + sep + Split(s, sep)[1]|;
            n == |s| || (n < |s| && s[n] == sep[0])
  {
    ContainsHasFirstIndex(s, sep);
    SecondPieceEndsAt(s, sep, IndexFrom(s, sep, 0).value);
  }

  lemma SecondPieceEndsAt(s: string, sep: string, i: nat)
    requires |sep| == 1 && IndexFrom(s, sep, 0) == Some(i)
    ensures |Split(s, sep)| >= 2
    ensures var n := |Split(s, sep)[0] + sep + Split(s, sep)[1]|;
            n == |s| || (n < |s| && s[n] == sep[0])
  {
    var rest := s[i + 1..];
    var w := Split(rest, sep)[0];
    SplitFirstTwoAt(s, sep, i);
    assert |w| == |rest| || (|w| < |rest| && rest[|w|] == sep[0]) by {
      SplitFirstPiece(rest, sep);
      if |w| < |rest| {
        OccursAtFirstChar(rest, sep, |w|);
      }
    }
  }

  /** The first two pieces around the first occurrence at `i`. */
  lemma SplitFirstTwoAt(s: string, sep: string, i: nat)
    requires |sep| > 0 && IndexFrom(s, sep, 0) == Some(i)
    ensures |Split(s, sep)| >= 2 && Split(s, sep)[0] == s[..i]
    ensures Split(s, sep)[1] == Split(s[i + |sep|..], sep)[0]
  {
    SplitAtFirst(s, sep, i);
  }

  /** A text is the part before an occurrence, the occurrence, and the
      part after it. */
  lemma AroundOccurrence(s: string, pat: string, i: nat)
    requires OccursAt(s, pat, i)
    ensures s == s[..i] + pat + s[i + |pat|..]
  {
    assert s == s[..i] + s[i..i + |pat|] + s[i + |pat|..];
  }

  lemma ContainsHasFirstIndex(s: string, sep: string)
    requires Contains(s, sep)
    ensures IndexFrom(s, sep, 0).Some?
  {
    IndexFromIsFirst(s, sep, 0);
    var j :| 0 <= j <= |s| && OccursAt(s, sep, j);
  }

  /** One step of `Split`: the piece before the first occurrence, then the
      pieces of what follows it. */
  lemma SplitAtFirst(s: string, sep: string, i: nat)
    requires |sep| > 0 && IndexFrom(s, sep, 0) == Some(i)
    ensures Split(s, sep) == [s[..i]] + Split(s[i + |sep|..], sep)
  {
    match IndexFrom(s, sep, 0)
    case Some(j) => assert j == i;
  }

  /** `parts.join(sep)` */
  function Join(parts: seq<string>, sep: string): string {
    if |parts| == 0 then ""
    else if |parts| == 1 then parts[0]
    else parts[0] + sep + Join(parts[1..], sep)
  }

  /** Joining the pieces of a split with the same separator gives the
      original text back. */
  lemma {:induction false} SplitJoin(s: string, sep: string)
    requires |sep| > 0
    ensures Join(Split(s, sep), sep) == s
    decreases |s|
  {
    match IndexFrom(s, sep, 0)
    case None =>
    case Some(i) =>
      var rest := s[i + |sep|..];
      var parts := Split(rest, sep);
      SplitJoin(rest, sep);
      IndexFromIsFirst(s, sep, 0);
      assert Split(s, sep) == [s[..i]] + parts;
      assert ([s[..i]] + parts)[1..] == parts;
      assert Join([s[..i]] + parts, sep) == s[..i] + sep + rest;
      assert s == s[..i] + s[i..i + |sep|] + rest;
  }

  /** `s.split(sep)[k]`, with `None` for JavaScript's `undefined`. */
  function Segment(s: string, sep: string, k: nat): Option<string>
    requires |sep| > 0
  {
    var parts := Split(s, sep);
    if k < |parts| then Some(parts[k]) else None
  }

  /** Splitting a text that starts with its own separator yields an empty
      first piece followed by the pieces of the remainder. */
  lemma SplitLeadingSeparator(s: string, sep: string)
    requires |sep| > 0 && StartsWith(s, sep)
    ensures Split(s, sep) == [""] + Split(s[|sep|..], sep)
  {
    assert OccursAt(s, sep, 0);
  }

  /** `s.split(sep)[0]`: the text up to the first `sep`, or all of `s`. */
  function FirstPiece(s: string, sep: string): (w: string)
    requires |sep| > 0
    ensures StartsWith(s, w) && !Contains(w, sep)
    ensures |w| == |s| || OccursAt(s, sep, |w|)
  {
    SplitFirstPiece(s, sep);
    Split(s, sep)[0]
  }

  lemma SplitFirstPiece(s: string, sep: string)
    requires |sep| > 0
    ensures StartsWith(s, Split(s, sep)[0]) && !Contains(Split(s, sep)[0], sep)
    ensures |Split(s, sep)[0]| == |s| || OccursAt(s, sep, |Split(s, sep)[0]|)
  {
    SplitPieces(s, sep);
  }

  /** For a one-character separator, any prefix of `s` that is free of
      `sep` and ends at the end of `s` or right before an occurrence of
      `sep` is `s.split(sep)[0]`. */
  lemma {:induction false} FirstPieceUnique(s: string, sep: string, w: string)
    requires |sep| == 1
    requires StartsWith(s, w) && !Contains(w, sep)
    requires |w| == |s| || OccursAt(s, sep, |w|)
    ensures FirstPiece(s, sep) == w
  {
    var f := FirstPiece(s, sep);
    LongerPrefixHasSeparator(s, sep, f, w);
    LongerPrefixHasSeparator(s, sep, w, f);
    assert f == s[..|f|] && w == s[..|w|];
  }

  /** Of two prefixes of `s`, if the shorter one ends right before a
      one-character separator, the longer one contains that separator. */
  lemma LongerPrefixHasSeparator(s: string, sep: string, short: string, long: string)
    requires |sep| == 1 && StartsWith(s, short) && StartsWith(s, long)
    requires |short| == |s| || OccursAt(s, sep, |short|)
    ensures |short| < |long| ==> OccursAt(long, sep, |short|)
  {
    if |short| < |long| {
      assert long[|short|..|short| + 1] == s[|short|..|short| + 1];
    }
  }

  /** A text free of the separator splits into itself alone. */
  lemma SplitWithoutSeparator(s: string, sep: string)
    requires |sep| > 0 && !Contains(s, sep)
    ensures Split(s, sep) == [s]
  {
    SplitPieces(s, sep);
  }

  /** Splitting at the first occurrence of the separator. */
  lemma SplitAt(s: string, sep: string, i: nat)
    requires |sep| > 0 && OccursAt(s, sep, i)
    requires forall j | 0 <= j < i :: !OccursAt(s, sep, j)
    ensures Split(s, sep) == [s[..i]] + Split(s[i + |sep|..], sep)
  {
    IndexFromIsFirst(s, sep, 0);
    var r := IndexFrom(s, sep, 0);
    assert r.Some? && r.value == i;
    SplitAtFirst(s, sep, i);
  }

  /** For a one-character separator, a separator-free text followed by
      the separator is split off as the first piece. */
  lemma SplitAfterCleanPrefix(s: string, a: string, sep: string, rest: string)
    requires |sep| == 1 && !Contains(a, sep)
    requires s == a + sep + rest
    ensures Split(s, sep) == [a] + Split(rest, sep)
  {
    assert OccursAt(s, sep, |a|) by {
      assert s[|a|..|a| + 1] == sep;
    }
    forall j | 0 <= j < |a|
      ensures !OccursAt(s, sep, j)
    {
      assert s[j..j + 1] == a[j..j + 1];
      assert !OccursAt(a, sep, j);
    }
    SplitAt(s, sep, |a|);
    assert s[..|a|] == a && s[|a| + 1..] == rest;
  }

  /** For a one-character separator, two separator-free texts joined by
      the separator, followed by nothing or by another separator, split
      into those two texts first. */
  lemma SplitTwoPieces(s: string, a: string, sep: string, b: string, tail: string)
    requires |sep| == 1 && !Contains(a, sep) && !Contains(b, sep)
    requires tail == "" || StartsWith(tail, sep)
    requires s == a + sep + b + tail
    ensures |Split(s, sep)| >= 2 && Split(s, sep)[0] == a && Split(s, sep)[1] == b
  {
    var rest := b + tail;
    SplitAfterCleanPrefix(s, a, sep, rest);
    assert FirstPiece(rest, sep) == b by {
      assert rest[..|b|] == b;
      if tail != "" {
        assert rest[|b|..|b| + 1] == tail[..1];
      }
      FirstPieceUnique(rest, sep, b);
    }
  }

  /** `c.toLowerCase()` on the ASCII range. */
  function LowerChar(c: char): char {
    if 'A' <= c <= 'Z' then (c as int + 32) as char else c
  }

  /** `s.toLowerCase()`, character by character. */
  function ToLower(s: string): (r: string)
    ensures |r| == |s|
    ensures forall i | 0 <= i < |s| :: r[i] == LowerChar(s[i])
  {
    seq(|s|, i requires 0 <= i < |s| => LowerChar(s[i]))
  }

  /** Lower-casing neither creates nor removes a space. */
  lemma ToLowerKeepsSpaces(s: string)
    ensures Contains(ToLower(s), " ") <==> Contains(s, " ")
  {
    if Contains(s, " ") {
      var i :| 0 <= i <= |s| && OccursAt(s, " ", i);
      assert OccursAt(ToLower(s), " ", i);
    }
    if Contains(ToLower(s), " ") {
      var i :| 0 <= i <= |s| && OccursAt(ToLower(s), " ", i);
      assert ToLower(s)[i] == ' ';
      assert OccursAt(s, " ", i);
    }
  }
}

=== FILE: wrappers.dfy ===
/** The optional-value datatype used throughout the model: `None` stands for
    JavaScript's `undefined` (an unset configuration value, a missing array
    element, a failed external call that yields nothing). */
module Wrappers {

  datatype Option<+T> = None | Some(value: T)
}
